=== FILE: README.md ===
# Mobile Connect server-side demo controller, modelled in Dafny

This project models the decision logic of the server-side Mobile Connect demo controller
(`MobileConnectController`). The controller runs one subscriber authentication flow:

1. discovery chains into an authentication start;
2. the start caches the flow's nonce under the returned `state`;
3. the redirect callback checks the id-token nonce against the cached one;
4. the callback then chooses a user-info or identity retrieval and merges its result with the
   token fields into one reply.

Every Mobile Connect SDK call is an oracle. The model takes the call's outcome (a status, or
"threw") as an input. It returns a call record that says which SDK call the controller made and
with which arguments.

The controller keeps its state in static fields: the API version, the shared `CachedParameters`
record and the correlation store. The model threads these as an explicit `ControllerState` value.
A C# `null` becomes `Option.None`.

Modules, one per file:

- `Nullable` (`nullable.dfy`): the option type that stands for nullable references.
- `MobileConnect` (`mobile_connect.dfy`): the status envelope, request options, cached record and
  SDK call records.
- `CorrelationStore` (`correlation_store.dfy`): the state-to-record map and its upsert semantics.
- `Configuration` (`configuration.dfy`): operator parameters, flag parsing and the API-version
  choice.
- `ResponseBuilder` (`response_builder.dfy`): envelope replies, cookie forwarding and the combined
  identity body.
- `Controller` (`controller.dfy`): start, discovery, headless, redirect, retrieval and callback.
- `FlowProperties` (`flow_properties.dfy`): properties of a start followed by a callback.
- `Findings` (`findings.dfy`): the API-version choice as written, which dereferences null.

Several unhandled null dereferences in the controller become preconditions:

- no cached record for the callback's `state` (line 92);
- a status without a token response or an id-token nonce (lines 94-95);
- a null configured API version with a scope present (line 147);
- a discovery result without a `DiscoveryResponse` or `ResponseData` (line 54);
- a null `includeRequestIP` or `xRedirect` text (lines 226 and 235).

A successful start is also assumed to return a `State`. Line 157 would otherwise pass a null key to
`ResponseChecker.SaveData`, whose behaviour is not part of this model.

The callback can hand a `null` status to the response builder in two cases: neither flag is set
(lines 93 and 112), or the retrieval threw with a known state (lines 128 and 176). The model does
not invent a reply there. It returns the distinct outcome `Reply.NullStatus`.

Note the crossed wiring, which is modelled as written. The `identity` flag leads to
`RequestUserInfo`, and the `userInfo` flag leads to `RequestIdentity`.

Two details of the code are modelled literally:

- Lines 216-219 put a space after each comma of the combined body (`, "token_type":`).
- With neither flag set, line 112 hands `null` to `CreateResponse`. The authentication status is
  not passed through.

## Model

| member | source | states |
|---|---|---|
| `Configuration.GetParameters` | mobile-connect-demos/GSMA.MobileConnect.Demo.ServerSide/Controllers/MobileConnectController.cs:222-236 | the configured version is kept; request-IP forwarding is on iff the text is "True"; x-redirect is "APP" iff its text is "True" and "False" otherwise; client settings are copied |
| `Configuration.SelectApiVersion` | mobile-connect-demos/GSMA.MobileConnect.Demo.ServerSide/Controllers/MobileConnectController.cs:138-142 | with no scope, the version is Version1 when there is no provider metadata URL and Version2 when there is one; with a scope, the configured version is unchanged |
| `CorrelationStore.Save` | mobile-connect-demos/GSMA.MobileConnect.Demo.ServerSide/Controllers/MobileConnectController.cs:157 | saving binds the state to the record and leaves every other binding as it was |
| `CorrelationStore.Get` | mobile-connect-demos/GSMA.MobileConnect.Demo.ServerSide/Controllers/MobileConnectController.cs:91 | a lookup finds a record exactly when one is stored, and it is the stored one |
| `CorrelationStore.GetAfterSave` | mobile-connect-demos/GSMA.MobileConnect.Demo.ServerSide/Controllers/MobileConnectController.cs:117 | a lookup after a save finds the saved record; lookups of other states are unaffected |
| `CorrelationStore.LastWriterWins` | mobile-connect-demos/GSMA.MobileConnect.Demo.ServerSide/Controllers/MobileConnectController.cs:157 | two saves under one state leave the second record |
| `CorrelationStore.DistinctSavesCommute` | mobile-connect-demos/GSMA.MobileConnect.Demo.ServerSide/Controllers/MobileConnectController.cs:157 | saves under distinct states commute and do not drop each other's entries |
| `ResponseBuilder.CookieHeaders` | mobile-connect-demos/GSMA.MobileConnect.Demo.ServerSide/Controllers/MobileConnectController.cs:187-193 | one Set-Cookie header per cookie directive, same count, same order, same values |
| `ResponseBuilder.CookieHeadersRoundTrip` | mobile-connect-demos/GSMA.MobileConnect.Demo.ServerSide/Controllers/MobileConnectController.cs:189-192 | reading the Set-Cookie headers back yields exactly the forwarded cookie list |
| `ResponseBuilder.CreateResponse` | mobile-connect-demos/GSMA.MobileConnect.Demo.ServerSide/Controllers/MobileConnectController.cs:184-195 | the reply carries the status envelope and exactly its cookies in order; a null cookie list gives no headers |
| `ResponseBuilder.CombinedBody` | mobile-connect-demos/GSMA.MobileConnect.Demo.ServerSide/Controllers/MobileConnectController.cs:212-220 | the combined body is, in order: the access-token key and the quoted access token, the token-type key and the quoted token type, the id-token key and the quoted id token, the identity key and the identity text verbatim, then the closing brace; a null value appears as empty text |
| `ResponseBuilder.CreateIdentityResponse` | mobile-connect-demos/GSMA.MobileConnect.Demo.ServerSide/Controllers/MobileConnectController.cs:197-210 | the combined reply's body is built from the authentication token and the retrieved identity; its cookies are the retrieval status's only |
| `ResponseBuilder.IdentityResponseIgnoresAuthnCookies` | mobile-connect-demos/GSMA.MobileConnect.Demo.ServerSide/Controllers/MobileConnectController.cs:200-208 | the combined reply depends on the authentication status only through its token fields, so its cookies are never forwarded |
| `ResponseBuilder.CombinedBodyInjective` | mobile-connect-demos/GSMA.MobileConnect.Demo.ServerSide/Controllers/MobileConnectController.cs:216-219 | when the token fields contain no double quote, the combined body determines all three token fields and the identity text |
| `Controller.AuthOptions` | mobile-connect-demos/GSMA.MobileConnect.Demo.ServerSide/Controllers/MobileConnectController.cs:144-149 | the scope passes through; context and binding message are equal, both the binding text exactly under Version2 and both null otherwise |
| `Controller.FailureText` | mobile-connect-demos/GSMA.MobileConnect.Demo.ServerSide/Controllers/MobileConnectController.cs:153 | the diagnostic is the fixed prefix, then the error message, then the code separator, then the code (empty when null) |
| `Controller.StartAuthentication` | mobile-connect-demos/GSMA.MobileConnect.Demo.ServerSide/Controllers/MobileConnectController.cs:136-160 | the version in force becomes the (corrected) selected version and the call carries exactly the options for it: scope passed through, context and binding message set iff Version2; on an SDK error it returns the diagnostic and leaves the store and cached record unchanged; otherwise it caches the response nonce under the response state, changes nothing else, and returns the URL |
| `Controller.StartDiscovery` | mobile-connect-demos/GSMA.MobileConnect.Demo.ServerSide/Controllers/MobileConnectController.cs:48-57 | discovery gets the hints, proxied cookies, the request-IP flag parsed from the freshly loaded configuration, and the source IP; that flag, the configuration and the version selected from it stay in force; the chained call is a (non-headless) authentication start carrying exactly the options for that version and the discovered session and subscriber, and the operator URLs are left unchanged; the cached record gets the discovered session on every path, plus the new nonce on success; a failed start returns its diagnostic and keeps the store; a successful one caches the record under the returned state and returns the URL |
| `Controller.RequestHeadlessAuthentication` | mobile-connect-demos/GSMA.MobileConnect.Demo.ServerSide/Controllers/MobileConnectController.cs:61-73 | the headless call gets the given scope, context "headless", binding message "demo headless" and auto-retrieval on, with no accepted-results set and no client IP; the reply is exactly the status envelope with its cookies |
| `Controller.HandleRedirect` | mobile-connect-demos/GSMA.MobileConnect.Demo.ServerSide/Controllers/MobileConnectController.cs:77-84 | the redirect is handled with the expected state and nonce and options that set only the two accepted outcomes; the reply is exactly the status envelope with its cookies |
| `Controller.Retrieve` | mobile-connect-demos/GSMA.MobileConnect.Demo.ServerSide/Controllers/MobileConnectController.cs:115-134 | with no cached record, no call is made and the result is InvalidArgument "state value is incorrect"; otherwise the call uses the explicit token or else the cached one; a returned status passes unchanged and a throw gives null |
| `Controller.RequestUserInfo` | mobile-connect-demos/GSMA.MobileConnect.Demo.ServerSide/Controllers/MobileConnectController.cs:115-134 | with no cached record, no call and InvalidArgument "state value is incorrect"; otherwise one user-info call with the cached session and the explicit token, else the cached one; a returned status passes unchanged and a throw gives null |
| `Controller.RequestIdentity` | mobile-connect-demos/GSMA.MobileConnect.Demo.ServerSide/Controllers/MobileConnectController.cs:162-182 | with no cached record, no call and InvalidArgument "state value is incorrect"; otherwise one identity call with the cached session and the explicit token, else the cached one; a returned status passes unchanged and a throw gives null |
| `Controller.IdentityReply` | mobile-connect-demos/GSMA.MobileConnect.Demo.ServerSide/Controllers/MobileConnectController.cs:99-105 | a null retrieval status gives no reply; a present one gives the combined reply |
| `Controller.DiscoveryCallback` | mobile-connect-demos/GSMA.MobileConnect.Demo.ServerSide/Controllers/MobileConnectController.cs:88-113 | the redirect uses the cached session and nonce; a nonce mismatch gives InvalidArgument "nonce is incorrect" with no retrieval; on a match, a retrieval runs iff a flag is set, the identity flag first and leading to user-info, with the cached session, default options, and the token from the authentication or else the cached one; with no flag the status is null |
| `FlowProperties.CorrelatedCallbackPassesNonceCheck` | mobile-connect-demos/GSMA.MobileConnect.Demo.ServerSide/Controllers/MobileConnectController.cs:91-97 | after a successful start, a callback for its state with the nonce it received resumes that flow and is never rejected for the nonce |
| `FlowProperties.ForeignNonceRejected` | mobile-connect-demos/GSMA.MobileConnect.Demo.ServerSide/Controllers/MobileConnectController.cs:95-111 | after a successful start, a callback carrying any other nonce, or one for a start that cached no nonce, is rejected without retrieval |
| `FlowProperties.FailedStartKeepsFlows` | mobile-connect-demos/GSMA.MobileConnect.Demo.ServerSide/Controllers/MobileConnectController.cs:151-154 | a failed start leaves every pending flow's callback exactly as before |
| `FlowProperties.RetrieveReadsOneEntry` | mobile-connect-demos/GSMA.MobileConnect.Demo.ServerSide/Controllers/MobileConnectController.cs:117-122 | a retrieval depends on the store only through its own state's entry |
| `FlowProperties.NewFlowKeepsOtherFlows` | mobile-connect-demos/GSMA.MobileConnect.Demo.ServerSide/Controllers/MobileConnectController.cs:156-157 | under value storage, a successful start under a new state leaves every other pending flow's callback exactly as before |
| `FlowProperties.DiscoveredSessionResumedOnCallback` | mobile-connect-demos/GSMA.MobileConnect.Demo.ServerSide/Controllers/MobileConnectController.cs:53-54 | after discovery chains into a successful start, the callback resumes the discovered SDK session with the start's state and nonce |
| `FlowProperties.IdentityFlagTakesPrecedence` | mobile-connect-demos/GSMA.MobileConnect.Demo.ServerSide/Controllers/MobileConnectController.cs:97-106 | with both flags set, only the identity branch runs, and it calls the user-info endpoint |
| `FlowProperties.RetrievalPoliciesAgree` | mobile-connect-demos/GSMA.MobileConnect.Demo.ServerSide/Controllers/MobileConnectController.cs:162-182 | user-info and identity retrieval give the same status and make a call in the same cases |
| `FlowProperties.ScopelessStartContext` | mobile-connect-demos/GSMA.MobileConnect.Demo.ServerSide/Controllers/MobileConnectController.cs:138-149 | with no scope, the start sends no context or binding message without provider metadata, and the binding text with it |
| `FlowProperties.IdentityTextOtherThanTrueNeverCallsUserInfo` | mobile-connect-demos/GSMA.MobileConnect.Demo.ServerSide/Controllers/MobileConnectController.cs:97-99 | for any identity flag text other than exactly "True", or none, a callback never calls the user-info endpoint |
| `FlowProperties.NoExactTrueFlagNoRetrieval` | mobile-connect-demos/GSMA.MobileConnect.Demo.ServerSide/Controllers/MobileConnectController.cs:97-106 | unless one flag text is exactly "True", a callback makes no retrieval at all |
| `FlowProperties.CallbackRedirectAcceptsOnlyValidOrSkipped` | mobile-connect-demos/GSMA.MobileConnect.Demo.ServerSide/Controllers/MobileConnectController.cs:90-92 | the callback's redirect accepts exactly the "valid" and "validation skipped" outcomes and no failing one |
| `Findings.SelectApiVersionAsWritten` | mobile-connect-demos/GSMA.MobileConnect.Demo.ServerSide/Controllers/MobileConnectController.cs:139 | with no scope, the choice dereferences null exactly when the operator URLs are null; when they are present, it agrees with the corrected choice |
| `Findings.ScopelessStartDereferencesNull` | mobile-connect-demos/GSMA.MobileConnect.Demo.ServerSide/Controllers/MobileConnectController.cs:139-142 | with the URLs as the controller leaves them, every start without a scope dereferences null; the corrected choice picks Version1 or Version2 |

## Left out

- HTTP routing, the `Request` object and `HttpResponseMessage` construction: a reply is a body plus a header list.
- The Mobile Connect SDK (discovery, authentication, redirect handling, user-info, identity): its code is not part of this model, so each call's outcome is an input.
- Exceptions from SDK calls other than the two retrievals: the controller does not catch them, so they fall outside the model.
- Async tasks and the concurrency of the shared static fields: the model is sequential and threads the fields as one value.
- The aliasing of the single static `CachedParameters` object saved by reference (lines 31, 53 and 156): the storage semantics of `ResponseChecker` are not shown, so a save stores a value.
- JSON conversion (`ResponseConverter`, Newtonsoft): the decoded id-token nonce, the token fields and the identity text are given strings. A null JSON value concatenates as empty text.
- Reading the configuration file and building `ConcurrentCache`, `RestClient` and the SDK interface in `GetParameters`: these are I/O and object wiring.
- The error `cause` exception attached to error statuses: it does not reach any decision.
- The literal values of `Version1`, `Version2`, `ContextBindingMsg` and `ErrorCodes.InvalidArgument`: they are defined outside this file, so the model uses stand-ins, and the proofs need only that the two versions differ.
- `Controller.StartAuthentication`, `Controller.StartDiscovery`, `FlowProperties.ScopelessStartContext`: they use the corrected version choice `Configuration.SelectApiVersion`. As written, every start without a configured scope dereferences null at line 139 and never reaches lines 144-149 (see "## Findings").
- `FlowProperties.NewFlowKeepsOtherFlows`: holds under value storage only. The controller saves the one static `CachedParameters` object by reference (lines 31 and 156), so a second start would rewrite the nonce an earlier pending flow reads.
- `ResponseBuilder.CombinedBody`: its contract places every key and value at its position in the text, and `CombinedBodyInjective` states that the body is unambiguous for quote-free token fields. The body is not parsed back as JSON: the values are inserted without JSON escaping, so the text need not be valid JSON.

## Findings

| source | as written | input that shows it | evidently intended | confidence | as-written member | corrected member |
|---|---|---|---|---|---|---|
| mobile-connect-demos/GSMA.MobileConnect.Demo.ServerSide/Controllers/MobileConnectController.cs:139 | the provider-metadata URL is read through `_operatorUrLs`, a private static field (line 29) that no statement assigns | a configuration with no `scope`: `_operatorUrLs.ProviderMetadataUrl` dereferences null, so the Version1/Version2 choice is never reached | read the metadata URL from the operator URLs actually in use, and choose Version1 without one and Version2 with one | not executed; high, because the field is private and this file never assigns it | `Findings.SelectApiVersionAsWritten` | `Configuration.SelectApiVersion` |

=== FILE: configuration.dfy ===
/**
 * The operator configuration read from the demo's configuration file, the
 * string-to-flag mappings the controller applies to it, and the choice of
 * Mobile Connect API version made when authentication starts.
 */
module Configuration {
  import opened Nullable

  /** `OperatorParameters`: every field is the text read from the file, possibly absent. */
  datatype OperatorParameters = OperatorParameters(
    clientId: Option<string>,
    clientSecret: Option<string>,
    discoveryUrl: Option<string>,
    redirectUrl: Option<string>,
    xRedirect: Option<string>,
    includeRequestIp: Option<string>,
    apiVersion: Option<string>,
    scope: Option<string>,
    identity: Option<string>,
    userInfo: Option<string>)

  /** `OperatorUrls`, of which the controller reads only the provider-metadata URL. */
  datatype OperatorUrls = OperatorUrls(providerMetadataUrl: Option<string>)

  /** `MobileConnectConfig` as the controller fills it in. */
  datatype MobileConnectConfig = MobileConnectConfig(
    clientId: Option<string>,
    clientSecret: Option<string>,
    discoveryUrl: Option<string>,
    redirectUrl: Option<string>,
    xRedirect: string)

  /** What `GetParameters` leaves in the controller's static fields. */
  datatype Settings = Settings(apiVersion: Option<string>, includeRequestIp: bool, config: MobileConnectConfig)

  // Stand-ins for the demo's `Utils.Constants`, whose values are not part of this model;
  // the proofs rely only on the two versions differing.
  const Version1 := "mc_v1.1"
  const Version2 := "mc_v2.0"
  const ContextBindingMsg := "demo context"

  const TrueText := "True"
  const RedirectToApp := "APP"
  const NoRedirect := "False"

  /** `text.Equals("True")`: exact, case-sensitive comparison on a present string. */
  predicate IsTrue(text: string) {
    text == TrueText
  }

  /** `flag == "True"`: the null-safe comparison used for the identity and user-info flags. */
  predicate FlagSet(flag: Option<string>) {
    flag == Some(TrueText)
  }

  /** `GetParameters`: copy the client settings, parse the two flags, keep the configured version. */
  function GetParameters(p: OperatorParameters): (s: Settings)
    requires p.includeRequestIp.Some? && p.xRedirect.Some?
    ensures s.apiVersion == p.apiVersion
    ensures s.includeRequestIp <==> p.includeRequestIp == Some(TrueText)
    ensures s.config.xRedirect in {RedirectToApp, NoRedirect}
    ensures s.config.xRedirect == RedirectToApp <==> p.xRedirect == Some(TrueText)
    ensures s.config.clientId == p.clientId && s.config.clientSecret == p.clientSecret
    ensures s.config.discoveryUrl == p.discoveryUrl && s.config.redirectUrl == p.redirectUrl
  {
    Settings(
      p.apiVersion,
      IsTrue(p.includeRequestIp.value),
      MobileConnectConfig(
        p.clientId, p.clientSecret, p.discoveryUrl, p.redirectUrl,
        if IsTrue(p.xRedirect.value) then RedirectToApp else NoRedirect))
  }

  /**
   * The API version in force for one authentication start: without a configured
   * scope it is Version1 when no provider metadata is known and Version2 when it
   * is; with a scope the configured version stays.
   */
  function SelectApiVersion(scope: Option<string>, providerMetadataUrl: Option<string>, configured: Option<string>): (v: Option<string>)
    ensures scope.None? ==> v.Some?
    ensures scope.None? && providerMetadataUrl.None? ==> v == Some(Version1)
    ensures scope.None? && providerMetadataUrl.Some? ==> v == Some(Version2)
    ensures scope.Some? ==> v == configured
  {
    if scope.None? && providerMetadataUrl.None? then Some(Version1)
    else if scope.None? then Some(Version2)
    else configured
  }
}

=== FILE: controller.dfy ===
/**
 * The decision logic of `MobileConnectController`. The controller's static
 * fields are threaded through as a `ControllerState` value; every SDK call's
 * outcome is an input, and every call the controller makes is returned as a
 * call record so that contracts can say which call was made with what.
 */
module Controller {
  import opened Nullable
  import opened MobileConnect
  import opened Configuration
  import opened CorrelationStore
  import opened ResponseBuilder

  /** The static fields the operations read and write. */
  datatype ControllerState = ControllerState(
    params: OperatorParameters,
    urls: OperatorUrls,
    apiVersion: Option<string>,
    includeRequestIp: bool,
    cached: CachedParameters,
    store: Store)

  /** The options of one authentication start: context and binding message only under Version2. */
  function AuthOptions(scope: Option<string>, version: string): (o: RequestOptions)
    ensures o.scope == scope
    ensures o.context == o.bindingMessage
    ensures o.context.Some? <==> version == Version2
    ensures o.context.Some? ==> o.context.value == ContextBindingMsg
    ensures !o.autoRetrieveIdentityHeadless && o.acceptedValidationResults.None? && o.clientIp.None?
  {
    var msg := if version == Version2 then Some(ContextBindingMsg) else None;
    NoOptions.(scope := scope, context := msg, bindingMessage := msg)
  }

  const FailurePrefix := "Authentication was failed: '"
  const FailureCodeSeparator := "' , with code: "

  /** The diagnostic text of a failed start: the message, then the code (empty when null). */
  function FailureText(message: string, code: Option<string>): (text: string)
    ensures |text| == |FailurePrefix| + |message| + |FailureCodeSeparator| + |code.GetOr("")|
    ensures FailurePrefix <= text
    ensures text[|FailurePrefix|..|FailurePrefix| + |message|] == message
    ensures text[|FailurePrefix| + |message|..|FailurePrefix| + |message| + |FailureCodeSeparator|] == FailureCodeSeparator
    ensures text[|FailurePrefix| + |message| + |FailureCodeSeparator|..] == code.GetOr("")
  {
    FailurePrefix + (message + (FailureCodeSeparator + code.GetOr("")))
  }

  /** What an authentication start returns: the call made, the text returned, the state left behind. */
  datatype AuthStart = AuthStart(call: AuthenticationCall, text: Option<string>, after: ControllerState)

  /**
   * `StartAuthentication`: choose the version, start authentication with the
   * matching options and, given the SDK's `response`, either report the error
   * as text or cache the nonce under the returned state and return the URL.
   */
  function StartAuthentication(st: ControllerState, sdkSession: Option<string>, subscriberId: Option<string>,
                               response: Status): (r: AuthStart)
    requires SelectApiVersion(st.params.scope, st.urls.providerMetadataUrl, st.apiVersion).Some?
    requires response.errorMessage.None? ==> response.state.Some?
    ensures r.call.StartAuth? && r.call.sdkSession == sdkSession && r.call.subscriberId == subscriberId
    ensures r.after.apiVersion == SelectApiVersion(st.params.scope, st.urls.providerMetadataUrl, st.apiVersion)
    ensures r.call.options == AuthOptions(st.params.scope, r.after.apiVersion.value)
    // Corollaries of the two clauses above and of `AuthOptions`, stated for readers.
    ensures r.call.options.scope == st.params.scope
    ensures r.call.options.context.Some? <==> r.after.apiVersion == Some(Version2)
    ensures r.after.params == st.params && r.after.urls == st.urls && r.after.includeRequestIp == st.includeRequestIp
    ensures response.errorMessage.Some? ==>
      && r.text == Some(FailureText(response.errorMessage.value, response.errorCode))
      && r.after.store == st.store && r.after.cached == st.cached
    ensures response.errorMessage.None? ==>
      && r.text == response.url
      && r.after.cached == st.cached.(nonce := response.nonce)
      && Upserted(r.after.store, st.store, response.state.value, r.after.cached)
  {
    var version := SelectApiVersion(st.params.scope, st.urls.providerMetadataUrl, st.apiVersion).value;
    var call := StartAuth(sdkSession, subscriberId, AuthOptions(st.params.scope, version));
    var st1 := st.(apiVersion := Some(version));
    if response.errorMessage.Some? then
      AuthStart(call, Some(FailureText(response.errorMessage.value, response.errorCode)), st1)
    else
      var cached := st.cached.(nonce := response.nonce);
      AuthStart(call, response.url, st1.(cached := cached, store := Save(st.store, response.state.value, cached)))
  }

  /** What a discovery start returns: the discovery call made and the chained authentication start. */
  datatype DiscoveryStart = DiscoveryStart(call: DiscoveryCall, auth: AuthStart)

  /**
   * `StartDiscovery`: load the configuration `fileParams`, run discovery and,
   * given its result `discovered`, remember the SDK session and chain into
   * authentication with the discovered subscriber.
   */
  function StartDiscovery(st: ControllerState, fileParams: OperatorParameters,
                          msisdn: Option<string>, mcc: Option<string>, mnc: Option<string>, sourceIp: Option<string>,
                          discovered: Status, authResponse: Status): (r: DiscoveryStart)
    requires fileParams.includeRequestIp.Some? && fileParams.xRedirect.Some?
    requires discovered.discovery.Some?
    requires SelectApiVersion(fileParams.scope, st.urls.providerMetadataUrl, fileParams.apiVersion).Some?
    requires authResponse.errorMessage.None? ==> authResponse.state.Some?
    ensures r.call.msisdn == msisdn && r.call.mcc == mcc && r.call.mnc == mnc && r.call.shouldProxyCookies
    ensures r.call.includeRequestIp <==> fileParams.includeRequestIp == Some(TrueText)
    ensures r.call.options == NoOptions.(clientIp := sourceIp)
    ensures r.auth.call.StartAuth? && r.auth.after.urls == st.urls
    ensures r.auth.call.sdkSession == discovered.sdkSession
    ensures r.auth.call.subscriberId == discovered.discovery.value.subscriberId
    ensures r.auth.after.params == fileParams
    ensures r.auth.after.apiVersion == SelectApiVersion(fileParams.scope, st.urls.providerMetadataUrl, fileParams.apiVersion)
    ensures r.auth.call.options == AuthOptions(fileParams.scope, r.auth.after.apiVersion.value)
    ensures r.auth.after.includeRequestIp == r.call.includeRequestIp
    ensures r.auth.after.cached == st.cached.(sdkSession := discovered.sdkSession,
                                              nonce := if authResponse.errorMessage.None? then authResponse.nonce
                                                       else st.cached.nonce)
    // Corollary of the clause above: the discovered session is recorded on every path.
    ensures r.auth.after.cached.sdkSession == discovered.sdkSession
    ensures authResponse.errorMessage.Some? ==>
      && r.auth.text == Some(FailureText(authResponse.errorMessage.value, authResponse.errorCode))
      && r.auth.after.store == st.store
    ensures authResponse.errorMessage.None? ==>
      && r.auth.text == authResponse.url
      && Upserted(r.auth.after.store, st.store, authResponse.state.value,
                  st.cached.(sdkSession := discovered.sdkSession, nonce := authResponse.nonce))
  {
    var settings := GetParameters(fileParams);
    var call := DiscoveryCall(msisdn, mcc, mnc, true, settings.includeRequestIp, NoOptions.(clientIp := sourceIp));
    var st1 := st.(params := fileParams, apiVersion := settings.apiVersion, includeRequestIp := settings.includeRequestIp,
                   cached := st.cached.(sdkSession := discovered.sdkSession));
    DiscoveryStart(call, StartAuthentication(st1, discovered.sdkSession, discovered.discovery.value.subscriberId, authResponse))
  }

  /** One SDK call and the reply the controller built from its result. */
  datatype Exchange<C> = Exchange(call: C, reply: HttpReply)

  const HeadlessContext := "headless"
  const HeadlessBindingMessage := "demo headless"

  /** `RequestHeadlessAuthentication`: fixed headless options, the SDK's status returned as is. */
  function RequestHeadlessAuthentication(sdkSession: Option<string>, subscriberId: Option<string>, scope: Option<string>,
                                         response: Status): (r: Exchange<AuthenticationCall>)
    ensures r.call.HeadlessAuth? && r.call.sdkSession == sdkSession && r.call.subscriberId == subscriberId
    ensures r.call.options.scope == scope
    ensures r.call.options.context == Some(HeadlessContext)
    ensures r.call.options.bindingMessage == Some(HeadlessBindingMessage)
    ensures r.call.options.autoRetrieveIdentityHeadless
    ensures r.call.options.acceptedValidationResults.None? && r.call.options.clientIp.None?
    ensures r.reply == CreateResponse(response)
    // Corollaries of the clause above and of `CreateResponse`: the envelope, with exactly its cookies.
    ensures r.reply.body == Envelope(response)
    ensures HeaderValues(r.reply.headers, SetCookie) == response.setCookie.GetOr([])
  {
    var options := NoOptions.(scope := scope, context := Some(HeadlessContext),
                              bindingMessage := Some(HeadlessBindingMessage), autoRetrieveIdentityHeadless := true);
    Exchange(HeadlessAuth(sdkSession, subscriberId, options), CreateResponse(response))
  }

  /** The validation outcomes a redirect accepts: fully valid, or skipped for lack of provider support. */
  const AcceptedValidationResults: set<TokenValidationResult> := {Valid, IdTokenValidationSkipped}

  const RedirectOptions := NoOptions.(acceptedValidationResults := Some(AcceptedValidationResults))

  /** `HandleRedirect`: the redirect is handled with the accepted outcomes and the status returned as is. */
  function HandleRedirect(sdkSession: Option<string>, expectedState: Option<string>, expectedNonce: Option<string>,
                          response: Status): (r: Exchange<RedirectCall>)
    ensures r.call.sdkSession == sdkSession
    ensures r.call.expectedState == expectedState && r.call.expectedNonce == expectedNonce
    ensures r.call.options == NoOptions.(acceptedValidationResults := Some({Valid, IdTokenValidationSkipped}))
    ensures r.reply == CreateResponse(response)
    // Corollaries of the clause above and of `CreateResponse`: the envelope, with exactly its cookies.
    ensures r.reply.body == Envelope(response)
    ensures HeaderValues(r.reply.headers, SetCookie) == response.setCookie.GetOr([])
  {
    Exchange(RedirectCall(sdkSession, expectedState, expectedNonce, RedirectOptions), CreateResponse(response))
  }

  const UnknownStateMessage := "state value is incorrect"
  const WrongNonceMessage := "nonce is incorrect"

  /** A secondary retrieval: the call made, if any, and the status it yields (`None` is `null`). */
  datatype Retrieval = Retrieval(call: Option<RetrievalCall>, status: Option<Status>)

  /**
   * The shared policy of `RequestUserInfo` and `RequestIdentity`: without a
   * cached record no call is made and the state is reported incorrect; with
   * one, the call uses the given access token or else the cached one, and a
   * call that throws yields `null`.
   */
  function Retrieve(kind: RetrievalKind, store: Store, state: string, accessToken: Option<string>,
                    outcome: CallOutcome): (r: Retrieval)
    ensures state !in store ==> r.call.None? && r.status == Some(Error(InvalidArgument, UnknownStateMessage))
    ensures state in store ==> r.call.Some?
    ensures r.call.Some? ==>
      && r.call.value.kind == kind
      && r.call.value.sdkSession == store[state].sdkSession
      && r.call.value.accessToken == (if accessToken.Some? then accessToken else store[state].accessToken)
      && r.call.value.options == NoOptions
    ensures state in store ==> (r.status.Some? <==> outcome.Returned?)
    ensures state in store && outcome.Returned? ==> r.status == Some(outcome.status)
  {
    match Get(store, state)
    case None => Retrieval(None, Some(Error(InvalidArgument, UnknownStateMessage)))
    case Some(cached) =>
      var token := if accessToken.None? then cached.accessToken else accessToken;
      var call := RetrievalCall(kind, cached.sdkSession, token, NoOptions);
      match outcome
      case Returned(status) => Retrieval(Some(call), Some(status))
      case Threw => Retrieval(Some(call), None)
  }

  function RequestUserInfo(store: Store, state: string, accessToken: Option<string>, outcome: CallOutcome): (r: Retrieval)
    ensures state !in store ==> r.call.None? && r.status == Some(Error(InvalidArgument, UnknownStateMessage))
    ensures state in store ==> r.call.Some?
    ensures r.call.Some? ==>
      && r.call.value.kind == UserInfo
      && r.call.value.sdkSession == store[state].sdkSession
      && r.call.value.accessToken == (if accessToken.Some? then accessToken else store[state].accessToken)
      && r.call.value.options == NoOptions
    ensures state in store ==> (r.status.Some? <==> outcome.Returned?)
    ensures state in store && outcome.Returned? ==> r.status == Some(outcome.status)
  {
    Retrieve(UserInfo, store, state, accessToken, outcome)
  }

  function RequestIdentity(store: Store, state: string, accessToken: Option<string>, outcome: CallOutcome): (r: Retrieval)
    ensures state !in store ==> r.call.None? && r.status == Some(Error(InvalidArgument, UnknownStateMessage))
    ensures state in store ==> r.call.Some?
    ensures r.call.Some? ==>
      && r.call.value.kind == Identity
      && r.call.value.sdkSession == store[state].sdkSession
      && r.call.value.accessToken == (if accessToken.Some? then accessToken else store[state].accessToken)
      && r.call.value.options == NoOptions
    ensures state in store ==> (r.status.Some? <==> outcome.Returned?)
    ensures state in store && outcome.Returned? ==> r.status == Some(outcome.status)
  {
    Retrieve(Identity, store, state, accessToken, outcome)
  }

  /** The controller's reply, or `NullStatus` when the status handed to the response builder is `null`. */
  datatype Reply = Sent(http: HttpReply) | NullStatus

  /** What a redirect callback does: the redirect call, the retrieval call if any, and the reply. */
  datatype Callback = Callback(redirect: RedirectCall, retrieval: Option<RetrievalCall>, reply: Reply)

  /** The decoded id-token nonce equals the cached one (`decoded.Equals(cached)`, false for a null cached nonce). */
  predicate NonceMatches(cached: CachedParameters, token: TokenResponse)
    requires token.idTokenNonce.Some?
  {
    cached.nonce == token.idTokenNonce
  }

  /** The combined reply for a retrieved status, or `NullStatus` for a `null` one. */
  function IdentityReply(status: Option<Status>, authn: Status): (reply: Reply)
    requires authn.token.Some?
    ensures status.None? <==> reply.NullStatus?
    ensures status.Some? ==> reply == Sent(CreateIdentityResponse(status.value, authn))
  {
    match status
    case None => NullStatus
    case Some(s) => Sent(CreateIdentityResponse(s, authn))
  }

  /**
   * `DiscoveryCallback`: handle the redirect for the cached flow under `state`
   * (its result is `authn`), check the id-token nonce against the cached one,
   * and on a match retrieve according to the flags, identity first; the
   * identity flag leads to `RequestUserInfo` and the user-info flag to
   * `RequestIdentity`. `retrieved` is the outcome of whichever retrieval runs.
   */
  function DiscoveryCallback(st: ControllerState, state: string, authn: Status, retrieved: CallOutcome): (r: Callback)
    requires state in st.store
    requires authn.token.Some? && authn.token.value.idTokenNonce.Some?
    ensures r.redirect == RedirectCall(st.store[state].sdkSession, Some(state), st.store[state].nonce, RedirectOptions)
    ensures !NonceMatches(st.store[state], authn.token.value) ==>
      && r.retrieval.None?
      && r.reply == Sent(CreateResponse(Error(InvalidArgument, WrongNonceMessage)))
    ensures NonceMatches(st.store[state], authn.token.value) ==>
      && (r.retrieval.Some? <==> FlagSet(st.params.identity) || FlagSet(st.params.userInfo))
      && (r.retrieval.Some? ==>
            && r.retrieval.value.kind == (if FlagSet(st.params.identity) then UserInfo else Identity)
            && r.retrieval.value.sdkSession == st.store[state].sdkSession
            && r.retrieval.value.options == NoOptions
            && r.retrieval.value.accessToken ==
                 (if authn.token.value.accessToken.Some? then authn.token.value.accessToken
                  else st.store[state].accessToken))
      && (r.retrieval.None? ==> r.reply == NullStatus)
      && (r.retrieval.Some? && retrieved.Returned? ==> r.reply == Sent(CreateIdentityResponse(retrieved.status, authn)))
      && (r.retrieval.Some? && retrieved.Threw? ==> r.reply == NullStatus)
  {
    var cached := st.store[state];
    var redirect := RedirectCall(cached.sdkSession, Some(state), cached.nonce, RedirectOptions);
    var token := authn.token.value;
    if NonceMatches(cached, token) then
      if FlagSet(st.params.identity) then
        var ret := RequestUserInfo(st.store, state, token.accessToken, retrieved);
        Callback(redirect, ret.call, IdentityReply(ret.status, authn))
      else if FlagSet(st.params.userInfo) then
        var ret := RequestIdentity(st.store, state, token.accessToken, retrieved);
        Callback(redirect, ret.call, IdentityReply(ret.status, authn))
      else
        Callback(redirect, None, NullStatus)
    else
      Callback(redirect, None, Sent(CreateResponse(Error(InvalidArgument, WrongNonceMessage))))
  }
}

=== FILE: correlation_store.dfy ===
/**
 * The correlation store behind `ResponseChecker.SaveData` / `getData`: a map
 * from the flow's `state` to its cached record. Saving upserts (last writer
 * wins); nothing is ever evicted.
 */
module CorrelationStore {
  import opened Nullable
  import opened MobileConnect

  type Store = map<string, CachedParameters>

  /** `after` is `before` with `key` bound to `value` and every other binding untouched. */
  ghost predicate Upserted(after: Store, before: Store, key: string, value: CachedParameters) {
    && key in after && after[key] == value
    && (forall k :: k != key ==> (k in after <==> k in before))
    && (forall k :: k != key && k in before ==> after[k] == before[k])
  }

  function Save(store: Store, key: string, value: CachedParameters): (after: Store)
    ensures Upserted(after, store, key, value)
  {
    store[key := value]
  }

  /** A lookup; `None` is the missing-entry result (`cachedInfo.Result == null`). */
  function Get(store: Store, key: string): (r: Option<CachedParameters>)
    ensures r.Some? <==> key in store
    ensures r.Some? ==> r.value == store[key]
  {
    if key in store then Some(store[key]) else None
  }

  lemma GetAfterSave(store: Store, key: string, value: CachedParameters, other: string)
    ensures Get(Save(store, key, value), key) == Some(value)
    ensures other != key ==> Get(Save(store, key, value), other) == Get(store, other)
  {
  }

  /** Two saves under one key: the second wins. */
  lemma LastWriterWins(store: Store, key: string, first: CachedParameters, second: CachedParameters)
    ensures Save(Save(store, key, first), key, second) == Save(store, key, second)
  {
  }

  /** Saves under distinct keys do not disturb each other, in either order. */
  lemma DistinctSavesCommute(store: Store, k1: string, v1: CachedParameters, k2: string, v2: CachedParameters)
    requires k1 != k2
    ensures Save(Save(store, k1, v1), k2, v2) == Save(Save(store, k2, v2), k1, v1)
    ensures Get(Save(Save(store, k1, v1), k2, v2), k1) == Some(v1)
  {
  }
}

=== FILE: findings.dfy ===
/**
 * The API-version choice as the controller writes it: the provider-metadata
 * URL is read through the static `_operatorUrLs`, a private field that no
 * statement of the controller ever assigns, so it is always null there.
 */
module Findings {
  import opened Nullable
  import opened Configuration

  datatype VersionChoice = Chosen(version: Option<string>) | NullDereference

  /** `_operatorUrLs` as the controller leaves it: never assigned, so null. */
  const OperatorUrlsAsDeclared: Option<OperatorUrls> := None

  /** Lines 138-142 with the URLs read through a possibly null reference. */
  function SelectApiVersionAsWritten(scope: Option<string>, urls: Option<OperatorUrls>, configured: Option<string>): (r: VersionChoice)
    ensures scope.Some? ==> r == Chosen(configured)
    ensures scope.None? ==> (r.NullDereference? <==> urls.None?)
    ensures r.Chosen? && urls.Some? ==> r.version == SelectApiVersion(scope, urls.value.providerMetadataUrl, configured)
  {
    if scope.Some? then Chosen(configured)
    else match urls
      case None => NullDereference
      case Some(u) => Chosen(if u.providerMetadataUrl.None? then Some(Version1) else Some(Version2))
  }

  /**
   * Every start without a configured scope dereferences null, so the Version1
   * and Version2 choices are never made; the corrected choice makes them.
   */
  lemma ScopelessStartDereferencesNull(configured: Option<string>, metadataUrl: Option<string>)
    ensures SelectApiVersionAsWritten(None, OperatorUrlsAsDeclared, configured) == NullDereference
    ensures SelectApiVersion(None, metadataUrl, configured) == Some(if metadataUrl.None? then Version1 else Version2)
  {
  }
}

=== FILE: flow_properties.dfy ===
/**
 * Properties of whole flows: an authentication start followed by the redirect
 * callback for the state it returned, and the independence of flows that
 * share the correlation store.
 */
module FlowProperties {
  import opened Nullable
  import opened MobileConnect
  import opened Configuration
  import opened CorrelationStore
  import opened ResponseBuilder
  import opened Controller

  /** The reply a callback gives when the id-token nonce is not the cached one. */
  const NonceRejection: Reply := Sent(CreateResponse(Error(InvalidArgument, WrongNonceMessage)))

  /**
   * A callback for the state a successful start returned, whose id token
   * carries the nonce that start received, passes the nonce check: the
   * redirect is handled with the flow's session and nonce, and a retrieval
   * runs exactly when a flag is set.
   */
  lemma CorrelatedCallbackPassesNonceCheck(st: ControllerState, sdkSession: Option<string>, subscriberId: Option<string>,
                                           response: Status, authn: Status, retrieved: CallOutcome)
    requires SelectApiVersion(st.params.scope, st.urls.providerMetadataUrl, st.apiVersion).Some?
    requires response.errorMessage.None? && response.state.Some? && response.nonce.Some?
    requires authn.token.Some? && authn.token.value.idTokenNonce == response.nonce
    ensures var a := StartAuthentication(st, sdkSession, subscriberId, response);
            && response.state.value in a.after.store
            && var c := DiscoveryCallback(a.after, response.state.value, authn, retrieved);
            && c.redirect.sdkSession == st.cached.sdkSession
            && c.redirect.expectedNonce == response.nonce
            && c.reply != NonceRejection
            && (c.retrieval.Some? <==> FlagSet(st.params.identity) || FlagSet(st.params.userInfo))
  {
  }

  /**
   * A callback whose id token carries any other nonce, or a start that cached
   * no nonce at all, is rejected with no retrieval, whatever the flags.
   */
  lemma ForeignNonceRejected(st: ControllerState, sdkSession: Option<string>, subscriberId: Option<string>,
                             response: Status, authn: Status, retrieved: CallOutcome)
    requires SelectApiVersion(st.params.scope, st.urls.providerMetadataUrl, st.apiVersion).Some?
    requires response.errorMessage.None? && response.state.Some?
    requires authn.token.Some? && authn.token.value.idTokenNonce.Some?
    requires authn.token.value.idTokenNonce != response.nonce
    ensures var a := StartAuthentication(st, sdkSession, subscriberId, response);
            && response.state.value in a.after.store
            && var c := DiscoveryCallback(a.after, response.state.value, authn, retrieved);
            && c.retrieval.None?
            && c.reply == NonceRejection
  {
  }

  /** A start that failed leaves every pending flow's callback exactly as it was. */
  lemma FailedStartKeepsFlows(st: ControllerState, sdkSession: Option<string>, subscriberId: Option<string>,
                              response: Status, state: string, authn: Status, retrieved: CallOutcome)
    requires SelectApiVersion(st.params.scope, st.urls.providerMetadataUrl, st.apiVersion).Some?
    requires response.errorMessage.Some?
    requires state in st.store
    requires authn.token.Some? && authn.token.value.idTokenNonce.Some?
    ensures var a := StartAuthentication(st, sdkSession, subscriberId, response);
            && state in a.after.store
            && DiscoveryCallback(a.after, state, authn, retrieved) == DiscoveryCallback(st, state, authn, retrieved)
  {
  }

  /** Retrieval depends on the store only through the entry for its own state. */
  lemma RetrieveReadsOneEntry(kind: RetrievalKind, s1: Store, s2: Store, state: string,
                              accessToken: Option<string>, outcome: CallOutcome)
    requires Get(s1, state) == Get(s2, state)
    ensures Retrieve(kind, s1, state, accessToken, outcome) == Retrieve(kind, s2, state, accessToken, outcome)
  {
  }

  /**
   * Under value storage (each save stores its own copy of the record),
   * starting a new flow does not disturb another pending flow: the callback
   * for any other cached state behaves exactly as before the start.
   */
  lemma NewFlowKeepsOtherFlows(st: ControllerState, sdkSession: Option<string>, subscriberId: Option<string>,
                               response: Status, other: string, authn: Status, retrieved: CallOutcome)
    requires SelectApiVersion(st.params.scope, st.urls.providerMetadataUrl, st.apiVersion).Some?
    requires response.errorMessage.None? && response.state.Some?
    requires other in st.store && other != response.state.value
    requires authn.token.Some? && authn.token.value.idTokenNonce.Some?
    ensures var a := StartAuthentication(st, sdkSession, subscriberId, response);
            && other in a.after.store
            && DiscoveryCallback(a.after, other, authn, retrieved) == DiscoveryCallback(st, other, authn, retrieved)
  {
  }

  /**
   * After discovery chains into a successful start, the callback for the
   * returned state resumes the discovered SDK session with the new nonce.
   */
  lemma DiscoveredSessionResumedOnCallback(st: ControllerState, fileParams: OperatorParameters,
                                           msisdn: Option<string>, mcc: Option<string>, mnc: Option<string>,
                                           sourceIp: Option<string>, discovered: Status, authResponse: Status,
                                           authn: Status, retrieved: CallOutcome)
    requires fileParams.includeRequestIp.Some? && fileParams.xRedirect.Some?
    requires discovered.discovery.Some?
    requires SelectApiVersion(fileParams.scope, st.urls.providerMetadataUrl, fileParams.apiVersion).Some?
    requires authResponse.errorMessage.None? && authResponse.state.Some?
    requires authn.token.Some? && authn.token.value.idTokenNonce.Some?
    ensures var d := StartDiscovery(st, fileParams, msisdn, mcc, mnc, sourceIp, discovered, authResponse);
            && authResponse.state.value in d.auth.after.store
            && var c := DiscoveryCallback(d.auth.after, authResponse.state.value, authn, retrieved);
            && c.redirect.sdkSession == discovered.sdkSession
            && c.redirect.expectedNonce == authResponse.nonce
            && c.redirect.expectedState == authResponse.state
  {
  }

  /** With both flags set only the identity flag's branch runs, and it calls the user-info endpoint. */
  lemma IdentityFlagTakesPrecedence(st: ControllerState, state: string, authn: Status, retrieved: CallOutcome)
    requires state in st.store
    requires authn.token.Some? && authn.token.value.idTokenNonce.Some?
    requires NonceMatches(st.store[state], authn.token.value)
    requires FlagSet(st.params.identity) && FlagSet(st.params.userInfo)
    ensures var c := DiscoveryCallback(st, state, authn, retrieved);
            c.retrieval.Some? && c.retrieval.value.kind == UserInfo
  {
  }

  /** User-info and identity retrieval apply the same leniency policy and differ only in the endpoint. */
  lemma RetrievalPoliciesAgree(store: Store, state: string, accessToken: Option<string>, outcome: CallOutcome)
    ensures RequestUserInfo(store, state, accessToken, outcome).status == RequestIdentity(store, state, accessToken, outcome).status
    ensures RequestUserInfo(store, state, accessToken, outcome).call.Some? <==> RequestIdentity(store, state, accessToken, outcome).call.Some?
  {
  }

  /** Without a configured scope, the start's context follows the provider metadata: none without it, the binding text with it. */
  lemma ScopelessStartContext(st: ControllerState, sdkSession: Option<string>, subscriberId: Option<string>, response: Status)
    requires st.params.scope.None?
    requires response.errorMessage.None? ==> response.state.Some?
    ensures var a := StartAuthentication(st, sdkSession, subscriberId, response);
            && (st.urls.providerMetadataUrl.None? ==> a.call.options.context.None? && a.call.options.bindingMessage.None?)
            && (st.urls.providerMetadataUrl.Some? ==> a.call.options.context == Some(ContextBindingMsg)
                                                      && a.call.options.bindingMessage == Some(ContextBindingMsg))
  {
  }

  /**
   * Only the exact text "True" turns the identity flag on: for any other
   * identity text, or none, a callback never calls the user-info endpoint.
   */
  lemma IdentityTextOtherThanTrueNeverCallsUserInfo(st: ControllerState, state: string, authn: Status, retrieved: CallOutcome)
    requires state in st.store
    requires authn.token.Some? && authn.token.value.idTokenNonce.Some?
    requires st.params.identity != Some("True")
    ensures var c := DiscoveryCallback(st, state, authn, retrieved);
            c.retrieval.Some? ==> c.retrieval.value.kind == Identity
  {
  }

  /**
   * Unless one flag text is exactly "True", a callback makes no retrieval:
   * "true", "TRUE" or a missing flag leave both endpoints uncalled.
   */
  lemma NoExactTrueFlagNoRetrieval(st: ControllerState, state: string, authn: Status, retrieved: CallOutcome)
    requires state in st.store
    requires authn.token.Some? && authn.token.value.idTokenNonce.Some?
    requires st.params.identity != Some("True") && st.params.userInfo != Some("True")
    ensures DiscoveryCallback(st, state, authn, retrieved).retrieval.None?
  {
  }

  /**
   * The redirect a callback makes accepts both "valid" and "validation
   * skipped" outcomes, and no failing validation outcome.
   */
  lemma CallbackRedirectAcceptsOnlyValidOrSkipped(st: ControllerState, state: string, authn: Status,
                                                  retrieved: CallOutcome, v: TokenValidationResult)
    requires state in st.store
    requires authn.token.Some? && authn.token.value.idTokenNonce.Some?
    ensures var accepted := DiscoveryCallback(st, state, authn, retrieved).redirect.options.acceptedValidationResults;
            && accepted.Some?
            && (v in accepted.value <==> v == Valid || v == IdTokenValidationSkipped)
  {
  }
}

=== FILE: mobile_connect.dfy ===
/**
 * The values the controller exchanges with the Mobile Connect SDK: the status
 * envelope every SDK operation returns, the request options the controller
 * builds, the correlation record it caches per flow, and one record per SDK
 * call so that a model can say which call was made and with what arguments.
 * The SDK itself is not part of this model: each call's outcome is an input.
 */
module MobileConnect {
  import opened Nullable

  /** Outcome of the SDK's id-token validation; `Failed` stands for every rejecting outcome. */
  datatype TokenValidationResult = Valid | IdTokenValidationSkipped | Failed(reason: string)

  /** The fields of `MobileConnectRequestOptions` the controller sets; `None` leaves the SDK default. */
  datatype RequestOptions = RequestOptions(
    scope: Option<string>,
    context: Option<string>,
    bindingMessage: Option<string>,
    autoRetrieveIdentityHeadless: bool,
    acceptedValidationResults: Option<set<TokenValidationResult>>,
    clientIp: Option<string>)

  /** `new MobileConnectRequestOptions()` with nothing set. */
  const NoOptions := RequestOptions(None, None, None, false, None, None)

  /** The token sub-object of a status, with the nonce decoded from its id token. */
  datatype TokenResponse = TokenResponse(
    accessToken: Option<string>,
    tokenType: Option<string>,
    idToken: Option<string>,
    idTokenNonce: Option<string>)

  datatype DiscoveryResponse = DiscoveryResponse(subscriberId: Option<string>)

  /** `MobileConnectStatus`: error fields, flow fields, payloads and cookie directives. */
  datatype Status = Status(
    errorCode: Option<string>,
    errorMessage: Option<string>,
    url: Option<string>,
    nonce: Option<string>,
    state: Option<string>,
    sdkSession: Option<string>,
    discovery: Option<DiscoveryResponse>,
    token: Option<TokenResponse>,
    identity: Option<string>,
    setCookie: Option<seq<string>>)

  /** The SDK's `ErrorCodes.InvalidArgument`. */
  const InvalidArgument := "invalid_argument"

  /** `MobileConnectStatus.Error(code, message, cause)`; the cause is not modelled. */
  function Error(code: string, message: string): Status {
    Status(Some(code), Some(message), None, None, None, None, None, None, None, None)
  }

  /** The correlation record cached per flow (`CachedParameters`). */
  datatype CachedParameters = CachedParameters(
    sdkSession: Option<string>,
    nonce: Option<string>,
    accessToken: Option<string>)

  /** `new CachedParameters()`. */
  const EmptyCache := CachedParameters(None, None, None)

  datatype RetrievalKind = UserInfo | Identity

  /** `AttemptDiscoveryAsync(request, msisdn, mcc, mnc, shouldProxyCookies, includeRequestIp, options)`. */
  datatype DiscoveryCall = DiscoveryCall(
    msisdn: Option<string>,
    mcc: Option<string>,
    mnc: Option<string>,
    shouldProxyCookies: bool,
    includeRequestIp: bool,
    options: RequestOptions)

  /** `StartAuthentication` and `RequestHeadlessAuthenticationAsync`. */
  datatype AuthenticationCall =
    | StartAuth(sdkSession: Option<string>, subscriberId: Option<string>, options: RequestOptions)
    | HeadlessAuth(sdkSession: Option<string>, subscriberId: Option<string>, options: RequestOptions)

  /** `HandleUrlRedirectAsync(request, uri, sdkSession, expectedState, expectedNonce, options)`. */
  datatype RedirectCall = RedirectCall(
    sdkSession: Option<string>,
    expectedState: Option<string>,
    expectedNonce: Option<string>,
    options: RequestOptions)

  /** `RequestUserInfoAsync` or `RequestIdentityAsync`. */
  datatype RetrievalCall = RetrievalCall(
    kind: RetrievalKind,
    sdkSession: Option<string>,
    accessToken: Option<string>,
    options: RequestOptions)

  /** What an SDK retrieval call did: returned a status, or threw. */
  datatype CallOutcome = Returned(status: Status) | Threw
}

=== FILE: nullable.dfy ===
/** A C# reference that may be `null`: `None` is `null`, `Some(v)` a present value. */
module Nullable {

  datatype Option<+T> = None | Some(value: T) {

    /** The value when present, `default` when `null`. */
    function GetOr(default: T): T {
      match this
      case Some(v) => v
      case None => default
    }
  }
}

=== FILE: response_builder.dfy ===
/**
 * Turning statuses into HTTP replies: the plain envelope reply with the
 * status's cookies forwarded as `Set-Cookie` headers, and the combined reply
 * that merges the authentication token fields with a retrieved identity.
 */
module ResponseBuilder {
  import opened Nullable
  import opened MobileConnect

  const SetCookie := "Set-Cookie"

  datatype Header = Header(name: string, value: string)

  /** A reply body: the converted status envelope, or literal JSON text. */
  datatype Body = Envelope(status: Status) | Json(text: string)

  datatype HttpReply = HttpReply(body: Body, headers: seq<Header>)

  /** One `Set-Cookie` header per cookie directive, in order. */
  function CookieHeaders(cookies: seq<string>): (headers: seq<Header>)
    ensures |headers| == |cookies|
    ensures forall i :: 0 <= i < |headers| ==> headers[i] == Header(SetCookie, cookies[i])
  {
    if cookies == [] then [] else [Header(SetCookie, cookies[0])] + CookieHeaders(cookies[1..])
  }

  /** The values of the headers called `name`, in order: what a client reads back. */
  function HeaderValues(headers: seq<Header>, name: string): seq<string> {
    if headers == [] then []
    else (if headers[0].name == name then [headers[0].value] else []) + HeaderValues(headers[1..], name)
  }

  /** Reading the `Set-Cookie` headers back gives exactly the forwarded directives. */
  lemma {:induction false} CookieHeadersRoundTrip(cookies: seq<string>)
    ensures HeaderValues(CookieHeaders(cookies), SetCookie) == cookies
  {
    if cookies != [] {
      var headers := CookieHeaders(cookies);
      assert headers[1..] == CookieHeaders(cookies[1..]);
      CookieHeadersRoundTrip(cookies[1..]);
    }
  }

  /** The headers forwarded for a possibly null cookie list. */
  function ForwardedCookies(setCookie: Option<seq<string>>): seq<Header> {
    match setCookie
    case None => []
    case Some(cookies) => CookieHeaders(cookies)
  }

  /** `CreateResponse`: the status envelope, with every cookie of the status forwarded. */
  function CreateResponse(status: Status): (reply: HttpReply)
    ensures reply.body == Envelope(status)
    ensures HeaderValues(reply.headers, SetCookie) == status.setCookie.GetOr([])
    ensures |reply.headers| == |status.setCookie.GetOr([])|
    ensures forall i :: 0 <= i < |reply.headers| ==> reply.headers[i].name == SetCookie
  {
    CookieHeadersRoundTrip(status.setCookie.GetOr([]));
    HttpReply(Envelope(status), ForwardedCookies(status.setCookie))
  }

  /** How a JSON token converts to text in a string concatenation: null becomes empty. */
  function Text(value: Option<string>): string {
    value.GetOr("")
  }

  const BodyOpen := "{\"access_token\":\""
  const AfterAccessToken := "\", \"token_type\":\""
  const AfterTokenType := "\", \"id_token\":\""
  const AfterIdToken := "\", \"identity\":"
  const BodyClose := "}"

  /**
   * The combined body of `createNewHttpResponseMessage`: the access token, token
   * type and id token each quoted after its own key, in that order, then the
   * identity verbatim after its key, then the closing brace.
   */
  function CombinedBody(token: TokenResponse, identity: Option<string>): (body: string)
    ensures |body| == |BodyOpen| + |AfterAccessToken| + |AfterTokenType| + |AfterIdToken| + |BodyClose|
                      + |Text(token.accessToken)| + |Text(token.tokenType)| + |Text(token.idToken)| + |Text(identity)|
    ensures var a := |BodyOpen|;
            var b := a + |Text(token.accessToken)|;
            var c := b + |AfterAccessToken|;
            var d := c + |Text(token.tokenType)|;
            var e := d + |AfterTokenType|;
            var f := e + |Text(token.idToken)|;
            var g := f + |AfterIdToken|;
            && body[..a] == BodyOpen
            && body[a..b] == Text(token.accessToken)
            && body[b..c] == AfterAccessToken
            && body[c..d] == Text(token.tokenType)
            && body[d..e] == AfterTokenType
            && body[e..f] == Text(token.idToken)
            && body[f..g] == AfterIdToken
            && body[g..|body| - 1] == Text(identity)
            && body[|body| - 1..] == BodyClose
  {
    FieldPositions(BodyOpen, Text(token.accessToken), AfterAccessToken, Text(token.tokenType),
                   AfterTokenType, Text(token.idToken), AfterIdToken, Text(identity), BodyClose);
    BodyOpen + (Text(token.accessToken) + (AfterAccessToken + (Text(token.tokenType) + (AfterTokenType
      + (Text(token.idToken) + (AfterIdToken + (Text(identity) + BodyClose)))))))
  }

  /** Splitting a suffix that is a concatenation: its two parts sit at consecutive positions. */
  lemma SliceOfConcat(body: string, k: nat, x: string, rest: string)
    requires k <= |body| && body[k..] == x + rest
    ensures k + |x| <= |body|
    ensures body[k..k + |x|] == x && body[k + |x|..] == rest
  {
    assert body[k..k + |x|] == body[k..][..|x|];
    assert body[k + |x|..] == body[k..][|x|..];
  }

  /** Where each piece of a nine-piece concatenation sits: fixed texts `p0..p4` around values `x1..x4`. */
  lemma FieldPositions(p0: string, x1: string, p1: string, x2: string, p2: string,
                       x3: string, p3: string, x4: string, p4: string)
    ensures var body := p0 + (x1 + (p1 + (x2 + (p2 + (x3 + (p3 + (x4 + p4)))))));
            var a := |p0|;
            var b := a + |x1|;
            var c := b + |p1|;
            var d := c + |x2|;
            var e := d + |p2|;
            var f := e + |x3|;
            var g := f + |p3|;
            var h := g + |x4|;
            && |body| == h + |p4|
            && body[..a] == p0 && body[a..b] == x1 && body[b..c] == p1 && body[c..d] == x2
            && body[d..e] == p2 && body[e..f] == x3 && body[f..g] == p3 && body[g..h] == x4
            && body[h..] == p4
  {
    var body := p0 + (x1 + (p1 + (x2 + (p2 + (x3 + (p3 + (x4 + p4)))))));
    var a := |p0|;
    var c := a + |x1| + |p1|;
    var e := c + |x2| + |p2|;
    var g := e + |x3| + |p3|;
    PairAt(body, 0, p0, x1, p1 + (x2 + (p2 + (x3 + (p3 + (x4 + p4))))));
    PairAt(body, a + |x1|, p1, x2, p2 + (x3 + (p3 + (x4 + p4))));
    PairAt(body, c + |x2|, p2, x3, p3 + (x4 + p4));
    PairAt(body, e + |x3|, p3, x4, p4);
  }

  /** Two consecutive pieces at a known position of `body`, and the rest after them. */
  lemma PairAt(body: string, k: nat, x: string, y: string, rest: string)
    requires k <= |body| && body[k..] == x + (y + rest)
    ensures k + |x| + |y| <= |body|
    ensures body[k..k + |x|] == x && body[k + |x|..k + |x| + |y|] == y && body[k + |x| + |y|..] == rest
  {
    SliceOfConcat(body, k, x, y + rest);
    SliceOfConcat(body, k + |x|, y, rest);
  }

  /** `CreateIdentityResponse`: the combined body, with only the retrieval status's cookies forwarded. */
  function CreateIdentityResponse(status: Status, authn: Status): (reply: HttpReply)
    requires authn.token.Some?
    ensures reply.body == Json(CombinedBody(authn.token.value, status.identity))
    ensures HeaderValues(reply.headers, SetCookie) == status.setCookie.GetOr([])
    ensures |reply.headers| == |status.setCookie.GetOr([])|
  {
    CookieHeadersRoundTrip(status.setCookie.GetOr([]));
    HttpReply(Json(CombinedBody(authn.token.value, status.identity)), ForwardedCookies(status.setCookie))
  }

  /** The combined reply depends on the authentication status only through its token fields. */
  lemma IdentityResponseIgnoresAuthnCookies(status: Status, authn1: Status, authn2: Status)
    requires authn1.token.Some? && authn2.token.Some?
    requires authn1.token.value == authn2.token.value
    ensures CreateIdentityResponse(status, authn1) == CreateIdentityResponse(status, authn2)
  {
  }

  predicate QuoteFree(s: string) {
    forall i :: 0 <= i < |s| ==> s[i] != '"'
  }

  lemma StripCommonPrefix(p: string, u: string, v: string)
    requires p + u == p + v
    ensures u == v
  {
    assert u == (p + u)[|p|..];
    assert v == (p + v)[|p|..];
  }

  /** The position of the first double quote in `s`, or `|s|` when there is none. */
  function FirstQuote(s: string): (k: nat)
    ensures k <= |s|
  {
    if s == [] then 0 else if s[0] == '"' then 0 else 1 + FirstQuote(s[1..])
  }

  lemma {:induction false} FirstQuoteAfter(x: string, u: string)
    requires QuoteFree(x) && |u| > 0 && u[0] == '"'
    ensures FirstQuote(x + u) == |x|
  {
    if x == [] {
      assert x + u == u;
    } else {
      assert (x + u)[1..] == x[1..] + u;
      FirstQuoteAfter(x[1..], u);
    }
  }

  /** A quote-free text followed by a quote-led rest is recovered unambiguously. */
  lemma SplitAtQuote(x: string, u: string, y: string, v: string)
    requires QuoteFree(x) && QuoteFree(y)
    requires |u| > 0 && u[0] == '"' && |v| > 0 && v[0] == '"'
    requires x + u == y + v
    ensures x == y && u == v
  {
    FirstQuoteAfter(x, u);
    FirstQuoteAfter(y, v);
    assert x == (x + u)[..|x|];
    assert y == (y + v)[..|y|];
    StripCommonPrefix(x, u, v);
  }

  /**
   * The combined body is unambiguous: when the three token fields hold no
   * double quote, the body determines every field and the identity text.
   */
  lemma CombinedBodyInjective(t1: TokenResponse, id1: Option<string>, t2: TokenResponse, id2: Option<string>)
    requires QuoteFree(Text(t1.accessToken)) && QuoteFree(Text(t1.tokenType)) && QuoteFree(Text(t1.idToken))
    requires QuoteFree(Text(t2.accessToken)) && QuoteFree(Text(t2.tokenType)) && QuoteFree(Text(t2.idToken))
    requires CombinedBody(t1, id1) == CombinedBody(t2, id2)
    ensures Text(t1.accessToken) == Text(t2.accessToken)
    ensures Text(t1.tokenType) == Text(t2.tokenType)
    ensures Text(t1.idToken) == Text(t2.idToken)
    ensures Text(id1) == Text(id2)
  {
    var tail1 := Text(id1) + BodyClose;
    var tail2 := Text(id2) + BodyClose;
    var afterId1 := AfterIdToken + tail1;
    var afterId2 := AfterIdToken + tail2;
    var afterType1 := AfterTokenType + (Text(t1.idToken) + afterId1);
    var afterType2 := AfterTokenType + (Text(t2.idToken) + afterId2);
    var afterAccess1 := AfterAccessToken + (Text(t1.tokenType) + afterType1);
    var afterAccess2 := AfterAccessToken + (Text(t2.tokenType) + afterType2);

    StripCommonPrefix(BodyOpen, Text(t1.accessToken) + afterAccess1, Text(t2.accessToken) + afterAccess2);
    SplitAtQuote(Text(t1.accessToken), afterAccess1, Text(t2.accessToken), afterAccess2);
    StripCommonPrefix(AfterAccessToken, Text(t1.tokenType) + afterType1, Text(t2.tokenType) + afterType2);
    SplitAtQuote(Text(t1.tokenType), afterType1, Text(t2.tokenType), afterType2);
    StripCommonPrefix(AfterTokenType, Text(t1.idToken) + afterId1, Text(t2.idToken) + afterId2);
    SplitAtQuote(Text(t1.idToken), afterId1, Text(t2.idToken), afterId2);
    StripCommonPrefix(AfterIdToken, tail1, tail2);
    assert Text(id1) == tail1[..|tail1| - 1];
    assert Text(id2) == tail2[..|tail2| - 1];
  }
}
